=== FILE: README.md ===
# Library circulation core, modelled in Dafny

This project models the circulation core of a small Django library application. The core covers three things:

- how a book's copy counters (`total_quantity`, `available_quantity`) change;
- how loans are opened, returned and listed as overdue;
- how the per-book reservation queue is filled, promoted and cancelled.

Each view is a pure, atomic transition. It takes a `State` (the three tables), the acting user, the HTTP verb, the view's arguments and the current instant, and returns an `Outcome`: the new state plus a `Reply` that stands in for the page or redirect.

Modules, one per source concern:

| file | module | source |
|---|---|---|
| wrappers.dfy | `Wrappers` | `Option`, for nullable columns and empty query results |
| clock.dfy | `Clock` | timestamps as integer seconds; `Day = 86400`, i.e. `timedelta(days=1)` |
| selection.dfy | `Selection` | a filtered query over a table whose primary keys are `0 .. n-1` |
| ordering.dfy | `Ordering` | a query's `order_by`: keys sorted by a rank, ties by key |
| inventory.dfy | `Inventory` | `Book` and its counter methods (books/models.py) |
| loans.dfy | `Loans` | `Loan`, `is_overdue`, the overdue query and its ordering |
| reservations.dfy | `Reservations` | `Reservation`, `is_expired`, `unique_together`, the FIFO head query |
| accounts.dfy | `Accounts` | `User` role and per-member queries (accounts/models.py) |
| circulation.dfy | `Circulation` | the views `book_create`, `loan_create`, `loan_return`, `loan_overdue_list`, `reservation_create`, `reservation_cancel` |
| invariants.dfy | `Invariants` | each view preserves the table invariants |
| properties.dfy | `Properties` | properties that span several views |

Modelling decisions:

- **Tables are sequences.** A row's primary key is its index: keys are auto-incremented and the core never deletes a row.
- **Foreign keys are indices** into the `books` sequence. `Circulation.Linked` states that every key points at an existing book; the database guarantees this.
- **`unique_together = ['user', 'book', 'status']` is enforced at save time.** A save that would duplicate a `(user, book, status)` triple fails with `IntegrityError` and writes nothing. Saves are assumed to commit one by one (Django's default autocommit; the settings file is not part of this model). So in `loan_return`, a failed promotion save leaves the closed loan and the incremented counter in place.
- **Permission comes before the verb.** `loan_return` and `reservation_cancel` check permission first and the HTTP verb second, as the source does.
- **Listings follow the source's ordering.** Loans are listed newest `loan_date` first (the loan table's default ordering). Reservations are listed earliest `reserved_date` first (the reservation table's default ordering). The overdue listing is ordered by `due_date`. Ties are left to the database by the source; the model puts the smaller key first, which makes every order total.

The model keeps the following behaviour of the code as written, even where it is surprising:

- `loan_create` does not check the three-loan cap or availability itself. Any such check would live in `LoanForm`, which is not part of this model, so a form that passes validation always records the loan. `decrease_quantity`'s refusal is ignored: the loan exists while the counter stays at 0 (`Properties.BorrowWithoutStockStillRecordsLoan`).
- A return of a loan that is not ACTIVE, and a cancel of a CANCELLED reservation, change nothing and report no error (`Ignored`).
- A reservation's expiry is set to one day after it is *made*. Promotion does not reset it.
- Uniqueness covers the whole `(user, book, status)` triple, not just one non-cancelled reservation per member and book. This has two consequences:
  - A member's second cancellation of the same book always fails, because a CANCELLED row for the pair already exists (`Properties.SecondCancelHitsConstraint`).
  - A member may hold a WAITING and an AVAILABLE reservation for one book at once. Promoting the WAITING one then fails (`Properties.PromotionHitsConstraint`).

Trivial predicates carry no contract of their own; their defining properties are stated by the members that use them:

- `Inventory.IsAvailable`: `available_quantity > 0`.
- `Loans.IsOverdue`: ACTIVE and `now > due_date`.
- `Reservations.IsExpired`: `now > expiry_date`.
- `Accounts.IsLibrarian`: role is `Librarian`.
- `Accounts.CanBorrow`: fewer than `BorrowLimit = 3` active loans.

## Model

| member | source | states |
|---|---|---|
| Inventory.DecreaseQuantity | books/models.py:57-63 | applied exactly when a copy is available; then lowers the available count by exactly one, otherwise leaves the book unchanged; no other field changes; keeps `available <= total` |
| Inventory.IncreaseQuantity | books/models.py:65-71 | applied exactly when available is below total; then raises it by exactly one and the book becomes available, otherwise unchanged; no other field changes; keeps `available <= total` |
| Inventory.AvailableIffLendable | books/models.py:53-55 | `is_available` holds exactly when `decrease_quantity` would succeed, i.e. when the counter is non-zero |
| Inventory.DecreaseThenIncrease | books/models.py:57-71 | on a bounded book, a successful decrease followed by an increase succeeds and restores the original book |
| Inventory.IncreaseThenDecrease | books/models.py:57-71 | a successful increase followed by a decrease succeeds and restores the original book |
| Inventory.Register | books/views.py:43-45 | a new book starts with every copy available, satisfies the bound, and cannot be increased |
| Loans.Open | books/views.py:94-98 | a new loan is ACTIVE with no return date, due exactly 14 days after it is made, and is overdue exactly at instants after the due date |
| Loans.Close | books/views.py:138-141 | a returned loan has status RETURNED and `returned_date = now`; its member, book, loan date and due date are unchanged; it is never overdue at any instant |
| Loans.OverdueIds | books/views.py:172-174 | the query `status='ACTIVE', due_date < now` selects exactly the loans for which `is_overdue` holds, in key order |
| Ordering.Insert | books/views.py:175 | inserting a key adds exactly that key (multiset) and keeps a listing in rank order |
| Ordering.Sort | books/views.py:175 | the result is a permutation of the distinct input keys, each listed once, in ascending rank order (ties by key) |
| Ordering.InsertDistinct | books/views.py:175 | inserting a key not yet listed into a listing without repeats gives a listing without repeats |
| Ordering.SortedRanks | books/views.py:175 | along a listing in rank order the rank never decreases |
| Ordering.SortAgree | books/models.py:118 | the listing depends only on the ranks of the listed keys, so rows outside the selection do not affect it |
| Loans.OverdueList | books/views.py:172-175 | the listing contains exactly the overdue loans, each once, due dates non-decreasing along the listing |
| Reservations.Open | books/views.py:191-195 | a new reservation is WAITING, dated now, and is expired exactly at instants more than one day later |
| Reservations.Store | books/models.py:162-167 | saving a row that collides with no other row under `(user, book, status)` keeps the table unique and changes no other row |
| Reservations.Head | books/views.py:147-150 | among rows below `n`, returns a WAITING row for the book that precedes every other such row, or nothing exactly when none waits |
| Reservations.FirstWaiting | books/views.py:147-150 | the FIFO head: a WAITING row for the book with the earliest reservation date (ties by key), or nothing exactly when no row waits |
| Reservations.HeadIsUnique | books/views.py:147-150 | any WAITING row for the book that precedes all others is the one the head query returns |
| Accounts.ActiveLoanIds | accounts/models.py:36-39 | the query behind `can_borrow`: exactly the keys of the member's ACTIVE loans, each once |
| Accounts.ActiveLoans | accounts/models.py:51-53 | exactly the member's ACTIVE loans, each once, newest loan date first as the loan table's default ordering (books/models.py:118) lists them; RETURNED loans never appear |
| Accounts.HasOverdueBooks | accounts/models.py:42-49 | true exactly when some loan of the member satisfies `is_overdue` |
| Accounts.ActiveReservations | accounts/models.py:55-57 | exactly the member's WAITING reservations, each once, earliest reservation date first as the reservation table's default ordering (books/models.py:165) lists them; AVAILABLE ones never appear |
| Accounts.OverdueBooksListed | accounts/models.py:42-49 | a member has overdue books exactly when one of the loans in the librarian's overdue listing is theirs |
| Accounts.OtherLoansDoNotCount | accounts/models.py:33-40 | adding a loan that is not an ACTIVE loan of the member changes neither their active loans nor `can_borrow` |
| Accounts.NewLoanCounts | accounts/models.py:33-40 | recording a new loan for the member raises their active count by exactly one |
| Accounts.ReturnFreesSlot | accounts/models.py:33-40 | returning one of the member's ACTIVE loans lowers their active count by exactly one |
| Accounts.ReturnLiftsCap | accounts/models.py:33-40 | a member with exactly three active loans cannot borrow, and can once one of them is returned |
| Circulation.BookCreate | books/views.py:37-54 | refused exactly for non-librarians; with POST, a valid form and an unused ISBN, appends one book whose available count equals its total; every other librarian request shows the form again, and nothing changes |
| Circulation.LoanCreate | books/views.py:85-110 | not-found exactly for an unknown book; the form is shown again exactly for a known book without a POST of a valid form; with POST and a valid form, appends the 14-day ACTIVE loan and decrements that book's counter exactly when a copy was available; other books and all reservations unchanged; otherwise nothing changes |
| Circulation.LoanReturn | books/views.py:127-166 | not-found exactly for an unknown loan; refused, with no change, exactly for a non-owner non-librarian; a permitted request that is not a POST gets the wrong-method reply exactly; a permitted POST on a loan that is not ACTIVE is ignored exactly; state changes exactly for a permitted POST on an ACTIVE loan, which closes the loan and increments only that book's counter; with no WAITING row for the book nothing is promoted; otherwise the FIFO head is promoted and no other row changes, except that the promotion fails with an integrity error, leaving reservations unchanged, exactly when the head's member already holds an AVAILABLE row for the book |
| Circulation.LoanOverdueList | books/views.py:169-180 | refused exactly for non-librarians; otherwise exactly the overdue loans, each once, earliest due date first |
| Circulation.ReservationCreate | books/views.py:183-205 | not-found exactly for an unknown book; the form is shown again exactly for a known book without a POST of a valid form; with POST and a valid form, appends a WAITING reservation expiring one day later exactly when the member has no WAITING row for the book, and otherwise fails on the constraint with no change |
| Circulation.ReservationCancel | books/views.py:224-243 | not-found exactly for an unknown reservation; refused exactly for a non-owner non-librarian; a permitted request that is not a POST gets the wrong-method reply exactly; a permitted POST on a row that is neither WAITING nor AVAILABLE is ignored exactly; cancels exactly on a permitted POST of a WAITING or AVAILABLE row whose member has no other CANCELLED row for the book, and only that row changes; the same request fails with an integrity error, changing nothing, exactly when such a CANCELLED row exists; otherwise nothing changes |
| Invariants.BookCreateKeepsConsistent | books/views.py:37-54 | `book_create` preserves links, the counter bound, ISBN uniqueness and reservation uniqueness |
| Invariants.LoanCreateKeepsConsistent | books/views.py:85-110 | `loan_create` preserves the same invariants, in particular `0 <= available <= total` |
| Invariants.LoanReturnKeepsConsistent | books/views.py:127-166 | `loan_return` preserves the same invariants, including reservation uniqueness after promotion |
| Invariants.ReservationCreateKeepsConsistent | books/views.py:183-205 | `reservation_create` preserves the same invariants |
| Invariants.ReservationCancelKeepsConsistent | books/views.py:224-243 | `reservation_cancel` preserves the same invariants |
| Properties.BorrowWithoutStockStillRecordsLoan | books/views.py:93-101 | with no copy available a valid borrow still records an ACTIVE loan and leaves every book unchanged |
| Properties.BorrowThenReturnRestoresBook | books/views.py:93-144 | a borrow of an available copy followed by its return by the same member restores every book's counters |
| Properties.ReturnLiftsCapInView | books/views.py:137-141 | a capped member returning one of their ACTIVE loans through the view may borrow again |
| Properties.ReservationListedUntilCancelled | accounts/models.py:55-57 | a new reservation appears among its member's active reservations and disappears once cancelled |
| Properties.SecondCancelHitsConstraint | books/models.py:162-167 | reserve, cancel, reserve again, cancel again: the second cancel fails on the constraint and the reservation stays WAITING |
| Properties.PromotionHitsConstraint | books/views.py:147-154 | after a member's reservation is promoted and they reserve again, the next return of the book fails to save the promotion although the loan is closed |
| Properties.OneCopyWalkThrough | books/views.py:93-154 | one copy: A borrows (counter 0), B reserves, A returns: counter back to 1, loan RETURNED, B's reservation AVAILABLE |

## Left out

- HTML rendering, flash messages and redirects: the `Reply` value stands in for them.
- `book_list`, `book_detail`, `book_update`, `book_delete`, `loan_list` and `reservation_list`: listing and catalogue maintenance views outside the circulation core. Deleting a book, with its cascade, is therefore not modelled.
- `BookForm`, `LoanForm` and `ReservationForm` validation: books/forms.py is not part of this model. A form is either valid or not (an `Option<BookForm>` or a boolean). An ISBN already in use is treated as a rejected form.
- Authentication (`login_required`, `librarian_required`): the actor is always an authenticated user. The decorator's role test is the `IsLibrarian` check inside the view.
- Concurrency: each view is one atomic transition, so the unsynchronised read-modify-write race between simultaneous borrows is outside the model.
- The clock: `timezone.now()` is the integer parameter `now`. `loan_date` and `reserved_date` (`auto_now_add`) are set to that same `now`.
- `created_at` and `updated_at` bookkeeping fields.
- Database integer width: counters are unbounded `nat`, not the column's 32-bit range. Every increment is guarded by `available < total`, so the bound is never reached from a valid state.
- The stored status `OVERDUE`: it is declared, but no operation ever writes it.
- Accounts.ActiveLoans: returns primary keys rather than records, and breaks loan-date ties by primary key. The source leaves the order of ties to the database.
- Accounts.ActiveReservations: returns primary keys rather than records, and breaks reservation-date ties by primary key. The source leaves the order of ties to the database.
- Loans.OverdueList: breaks due-date ties by primary key. The source leaves the order of ties to the database.
- Reservations.FirstWaiting: breaks reservation-date ties by primary key. The source leaves the order of ties to the database.

=== FILE: accounts.dfy ===
/** Member roles and the per-member queries over loans and reservations. */
module Accounts {
  import opened Loans
  import opened Reservations
  import Selection
  import Ordering

  /** `LIBRARIAN` or `USER`; the latter is the default role of a new account. */
  datatype Role = Librarian | Member

  /** An authenticated account: its primary key and role. */
  datatype User = User(id: nat, role: Role)

  /** Maximum number of loans a member may have out at once. */
  const BorrowLimit: nat := 3

  predicate IsLibrarian(u: User)
  {
    u.role == Librarian
  }

  predicate OwnActive(u: User, loans: seq<Loan>, i: nat)
  {
    i < |loans| && loans[i].user == u.id && loans[i].status == Active
  }

  /** Keys of the member's loans that are still out, in key order. */
  function ActiveLoanIds(u: User, loans: seq<Loan>): (r: seq<nat>)
    ensures forall i: nat :: i in r <==> i < |loans| && loans[i].user == u.id && loans[i].status == Active
    ensures Selection.Increasing(r)
  {
    Selection.Indices(|loans|, (i: nat) => OwnActive(u, loans, i))
  }

  /** The member's loans that are still out, listed newest loan date first (the loan table's default order). */
  function ActiveLoans(u: User, loans: seq<Loan>): (r: seq<nat>)
    ensures forall i: nat :: i in r <==> i < |loans| && loans[i].user == u.id && loans[i].status == Active
    ensures forall i: nat :: i < |loans| && loans[i].status == Returned ==> i !in r
    ensures multiset(r) == multiset(ActiveLoanIds(u, loans))
    ensures |r| == |ActiveLoanIds(u, loans)|
    ensures Ordering.Distinct(r)
    ensures Selection.Below(r, |loans|)
    ensures Ordering.Sorted(NewestFirst(loans), r)
    ensures forall i :: 0 <= i < |r| - 1 ==> loans[r[i]].loanDate >= loans[r[i + 1]].loanDate
  {
    var ids := ActiveLoanIds(u, loans);
    var r := Ordering.Sort(NewestFirst(loans), ids);
    assert Selection.Below(r, |loans|) by {
      forall i | 0 <= i < |r| ensures r[i] < |loans| {
        assert r[i] in r;
      }
    }
    Ordering.SortedRanks(NewestFirst(loans), r);
    r
  }

  /** The member is below the cap of concurrent active loans. */
  predicate CanBorrow(u: User, loans: seq<Loan>)
  {
    |ActiveLoanIds(u, loans)| < BorrowLimit
  }

  /** The row `has_overdue_books` filters for: the member's, still out, `due_date < now`. */
  predicate OwnLate(u: User, loans: seq<Loan>, now: int, i: nat)
  {
    i < |loans| && loans[i].user == u.id && loans[i].status == Active && loans[i].dueDate < now
  }

  /** Some loan of the member is still out past its due date. */
  function HasOverdueBooks(u: User, loans: seq<Loan>, now: int): (r: bool)
    ensures r <==> exists i :: 0 <= i < |loans| && loans[i].user == u.id && IsOverdue(loans[i], now)
  {
    var hits := Selection.Indices(|loans|, (i: nat) => OwnLate(u, loans, now, i));
    if |hits| > 0 then
      assert hits[0] in hits;
      true
    else
      NoneLate(u, loans, now, hits);
      false
  }

  /** An empty late-loan query means no loan of the member is overdue. */
  lemma NoneLate(u: User, loans: seq<Loan>, now: int, hits: seq<nat>)
    requires forall i: nat :: i in hits <==> OwnLate(u, loans, now, i)
    requires |hits| == 0
    ensures forall i :: 0 <= i < |loans| && loans[i].user == u.id ==> !IsOverdue(loans[i], now)
  {
    forall i | 0 <= i < |loans| && loans[i].user == u.id
      ensures !IsOverdue(loans[i], now)
    {
      assert i !in hits;
      assert !OwnLate(u, loans, now, i);
    }
  }

  /** Keys of the member's reservations still waiting in a queue, earliest reservation date first; promoted ones are not included. */
  function ActiveReservations(u: User, rs: seq<Reservation>): (r: seq<nat>)
    ensures forall i: nat :: i in r <==> i < |rs| && rs[i].user == u.id && rs[i].status == Waiting
    ensures forall i: nat :: i < |rs| && rs[i].status == Available ==> i !in r
    ensures Ordering.Distinct(r)
    ensures Ordering.Sorted(ReservedRank(rs), r)
    ensures Selection.Below(r, |rs|)
    ensures forall i :: 0 <= i < |r| - 1 ==> rs[r[i]].reservedDate <= rs[r[i + 1]].reservedDate
  {
    var ids := Selection.Indices(|rs|, (i: nat) => i < |rs| && rs[i].user == u.id && rs[i].status == Waiting);
    var r := Ordering.Sort(ReservedRank(rs), ids);
    assert Selection.Below(r, |rs|) by {
      forall i | 0 <= i < |r| ensures r[i] < |rs| {
        assert r[i] in r;
      }
    }
    Ordering.SortedRanks(ReservedRank(rs), r);
    r
  }

  /** A member has overdue books exactly when one of their loans is in the overdue listing. */
  lemma OverdueBooksListed(u: User, loans: seq<Loan>, now: int)
    ensures HasOverdueBooks(u, loans, now) <==>
      exists k :: 0 <= k < |OverdueList(loans, now)| && loans[OverdueList(loans, now)[k]].user == u.id
  {
    var r := OverdueList(loans, now);
    if HasOverdueBooks(u, loans, now) {
      var i :| 0 <= i < |loans| && loans[i].user == u.id && IsOverdue(loans[i], now);
      assert i in r;
      var k :| 0 <= k < |r| && r[k] == i;
    }
  }

  /** Appending a loan that is not an active loan of `u` leaves `u`'s active loans unchanged. */
  lemma {:induction false} OtherLoansDoNotCount(u: User, loans: seq<Loan>, l: Loan)
    requires l.user != u.id || l.status != Active
    ensures ActiveLoans(u, loans + [l]) == ActiveLoans(u, loans)
    ensures CanBorrow(u, loans + [l]) == CanBorrow(u, loans)
  {
    var loans' := loans + [l];
    Selection.IndicesAgree(|loans|, (i: nat) => OwnActive(u, loans', i), (i: nat) => OwnActive(u, loans, i));
    var ids := ActiveLoanIds(u, loans);
    assert ActiveLoanIds(u, loans') == ids;
    assert forall i :: 0 <= i < |ids| ==> ids[i] < |loans| by {
      forall i | 0 <= i < |ids| ensures ids[i] < |loans| {
        assert ids[i] in ids;
      }
    }
    Ordering.SortAgree(NewestFirst(loans'), NewestFirst(loans), ids);
  }

  /** Recording a new loan for `u` adds exactly one active loan to `u`'s count. */
  lemma {:induction false} NewLoanCounts(u: User, loans: seq<Loan>, book: nat, now: int)
    ensures |ActiveLoans(u, loans + [Loans.Open(u.id, book, now)])| == |ActiveLoans(u, loans)| + 1
  {
    var loans' := loans + [Loans.Open(u.id, book, now)];
    Selection.IndicesAgree(|loans|, (i: nat) => OwnActive(u, loans', i), (i: nat) => OwnActive(u, loans, i));
    assert ActiveLoanIds(u, loans') == ActiveLoanIds(u, loans) + [|loans|];
  }

  /** Returning one of `u`'s active loans lowers `u`'s active count by exactly one. */
  lemma {:induction false} ReturnFreesSlot(u: User, loans: seq<Loan>, k: nat, now: int)
    requires k < |loans| && loans[k].user == u.id && loans[k].status == Active
    ensures |ActiveLoans(u, loans[k := Close(loans[k], now)])| + 1 == |ActiveLoans(u, loans)|
  {
    var loans' := loans[k := Close(loans[k], now)];
    Selection.IndicesDropOne(|loans|, (i: nat) => OwnActive(u, loans, i), (i: nat) => OwnActive(u, loans', i), k);
  }

  /** A member at the cap may borrow again once one of their active loans is returned. */
  lemma ReturnLiftsCap(u: User, loans: seq<Loan>, k: nat, now: int)
    requires k < |loans| && loans[k].user == u.id && loans[k].status == Active
    requires |ActiveLoans(u, loans)| == BorrowLimit
    ensures !CanBorrow(u, loans)
    ensures CanBorrow(u, loans[k := Close(loans[k], now)])
  {
    ReturnFreesSlot(u, loans, k, now);
  }
}

=== FILE: circulation.dfy ===
/** The circulation views as atomic transitions over the three tables. */
module Circulation {
  import opened Wrappers
  import opened Clock
  import opened Inventory
  import opened Loans
  import opened Reservations
  import opened Accounts
  import Selection

  /** The persisted tables; a row's primary key is its index. */
  datatype State = State(books: seq<Book>, loans: seq<Loan>, reservations: seq<Reservation>)

  datatype HttpMethod = Get | Post

  /** A book form that passed validation. */
  datatype BookForm = BookForm(title: string, author: string, isbn: string, publisher: string, totalQuantity: nat)

  /** What the view answers with. */
  datatype Reply =
    | NotFound                            // get_object_or_404
    | Forbidden                           // not the owner and not a librarian
    | WrongMethod                         // the "invalid access" branch for non-POST requests
    | FormShown                           // GET, or the form did not validate
    | Ignored                             // POST on a record whose status admits no change
    | IntegrityError                      // a save broke the reservation uniqueness constraint
    | BookCreated(book: nat)
    | LoanCreated(loan: nat, decremented: bool)
    | LoanReturned(promoted: Option<nat>)
    | Reserved(reservation: nat)
    | ReservationCancelled

  datatype Outcome = Outcome(state: State, reply: Reply)

  /** Every foreign key points at an existing book. */
  predicate Linked(s: State)
  {
    && (forall i :: 0 <= i < |s.loans| ==> s.loans[i].book < |s.books|)
    && (forall i :: 0 <= i < |s.reservations| ==> s.reservations[i].book < |s.books|)
  }

  predicate IsbnTaken(books: seq<Book>, isbn: string)
  {
    exists i :: 0 <= i < |books| && books[i].isbn == isbn
  }

  predicate IsbnUnique(books: seq<Book>)
  {
    forall i, j :: 0 <= i < j < |books| ==> books[i].isbn != books[j].isbn
  }

  /** The database-level invariants together with the counter invariant. */
  predicate Consistent(s: State)
  {
    && Linked(s)
    && (forall i :: 0 <= i < |s.books| ==> Bounded(s.books[i]))
    && IsbnUnique(s.books)
    && UniqueTogether(s.reservations)
  }

  /** `book_create`: librarians only; the new book starts with every copy available. */
  function BookCreate(s: State, actor: User, verb: HttpMethod, form: Option<BookForm>): (r: Outcome)
    ensures !IsLibrarian(actor) ==> r == Outcome(s, Forbidden)
    ensures r.reply == Forbidden <==> !IsLibrarian(actor)
    ensures r.reply == FormShown <==>
      IsLibrarian(actor) && !(verb == Post && form.Some? && !IsbnTaken(s.books, form.value.isbn))
    ensures r.reply.BookCreated? <==>
      IsLibrarian(actor) && verb == Post && form.Some? && !IsbnTaken(s.books, form.value.isbn)
    ensures r.reply.BookCreated? ==>
      && r.reply.book == |s.books|
      && r.state.loans == s.loans && r.state.reservations == s.reservations
      && |r.state.books| == |s.books| + 1 && r.state.books[..|s.books|] == s.books
      && r.state.books[|s.books|].isbn == form.value.isbn
      && r.state.books[|s.books|].totalQuantity == form.value.totalQuantity
      && r.state.books[|s.books|].availableQuantity == form.value.totalQuantity
    ensures !r.reply.BookCreated? ==> r.state == s
  {
    if !IsLibrarian(actor) then Outcome(s, Forbidden)
    else if verb != Post then Outcome(s, FormShown)
    else
      match form
      case None => Outcome(s, FormShown)
      case Some(f) =>
        if IsbnTaken(s.books, f.isbn) then Outcome(s, FormShown)
        else
          var b := Register(f.title, f.author, f.isbn, f.publisher, f.totalQuantity);
          Outcome(s.(books := s.books + [b]), BookCreated(|s.books|))
  }

  /** `loan_create`: records a 14-day loan, then tries to take one copy off the shelf. */
  function LoanCreate(s: State, actor: User, verb: HttpMethod, bookId: nat, formValid: bool, now: int): (r: Outcome)
    ensures bookId >= |s.books| ==> r == Outcome(s, NotFound)
    ensures r.reply == NotFound <==> bookId >= |s.books|
    ensures r.reply == FormShown <==> bookId < |s.books| && !(verb == Post && formValid)
    ensures r.reply.LoanCreated? <==> bookId < |s.books| && verb == Post && formValid
    ensures r.reply.LoanCreated? ==>
      && r.reply.loan == |s.loans|
      && r.state.loans == s.loans + [Loans.Open(actor.id, bookId, now)]
      && r.state.loans[|s.loans|].dueDate == now + 14 * Day
      && r.state.reservations == s.reservations
      && |r.state.books| == |s.books|
      && (r.reply.decremented <==> IsAvailable(s.books[bookId]))
      && r.state.books[bookId].availableQuantity ==
           s.books[bookId].availableQuantity - (if r.reply.decremented then 1 else 0)
      && r.state.books[bookId] == s.books[bookId].(availableQuantity := r.state.books[bookId].availableQuantity)
      && (forall j :: 0 <= j < |s.books| && j != bookId ==> r.state.books[j] == s.books[j])
    ensures !r.reply.LoanCreated? ==> r.state == s
  {
    if bookId >= |s.books| then Outcome(s, NotFound)
    else if verb != Post || !formValid then Outcome(s, FormShown)
    else
      var loan := Loans.Open(actor.id, bookId, now);
      var u := DecreaseQuantity(s.books[bookId]);
      Outcome(State(s.books[bookId := u.book], s.loans + [loan], s.reservations), LoanCreated(|s.loans|, u.ok))
  }

  /** The actor may act on a record owned by `owner`. */
  predicate MayActFor(actor: User, owner: nat)
  {
    actor.id == owner || IsLibrarian(actor)
  }

  /** A return request that changes state: known loan, permitted actor, POST, loan still out. */
  predicate Returnable(s: State, actor: User, verb: HttpMethod, loanId: nat)
  {
    loanId < |s.loans| && MayActFor(actor, s.loans[loanId].user) && verb == Post && s.loans[loanId].status == Active
  }

  /** Promoting row `k` would collide with another AVAILABLE row of the same member and book. */
  predicate PromotionCollides(rs: seq<Reservation>, k: nat)
    requires k < |rs|
  {
    exists j :: 0 <= j < |rs| && j != k && rs[j].user == rs[k].user && rs[j].book == rs[k].book && rs[j].status == Available
  }

  /**
   * `loan_return`: closes the loan, puts the copy back and promotes the head of
   * the book's waiting queue. Each save commits on its own, so when the
   * promotion save breaks the uniqueness constraint the first two writes stay.
   */
  function LoanReturn(s: State, actor: User, verb: HttpMethod, loanId: nat, now: int): (r: Outcome)
    requires Linked(s)
    ensures loanId >= |s.loans| ==> r == Outcome(s, NotFound)
    ensures loanId < |s.loans| && !MayActFor(actor, s.loans[loanId].user) ==> r == Outcome(s, Forbidden)
    ensures r.reply == NotFound <==> loanId >= |s.loans|
    ensures r.reply == Forbidden <==> loanId < |s.loans| && !MayActFor(actor, s.loans[loanId].user)
    ensures r.reply == WrongMethod <==>
      loanId < |s.loans| && MayActFor(actor, s.loans[loanId].user) && verb != Post
    ensures r.reply == Ignored <==>
      && loanId < |s.loans|
      && MayActFor(actor, s.loans[loanId].user)
      && verb == Post
      && s.loans[loanId].status != Active
    ensures r.state != s <==> Returnable(s, actor, verb, loanId)
    ensures Returnable(s, actor, verb, loanId) ==>
      var l := s.loans[loanId];
      && r.state.loans == s.loans[loanId := Close(l, now)]
      && |r.state.books| == |s.books|
      && r.state.books[l.book] == IncreaseQuantity(s.books[l.book]).book
      && (forall j :: 0 <= j < |s.books| && j != l.book ==> r.state.books[j] == s.books[j])
      && (r.reply.LoanReturned? || r.reply.IntegrityError?)
    ensures r.reply.LoanReturned? ==> Returnable(s, actor, verb, loanId)
    ensures r.reply.LoanReturned? && r.reply.promoted.None? ==>
      && r.state.reservations == s.reservations
      && (forall j :: 0 <= j < |s.reservations| ==> !WaitsFor(s.reservations[j], s.loans[loanId].book))
    ensures r.reply.LoanReturned? && r.reply.promoted.Some? ==>
      var k, rs := r.reply.promoted.value, s.reservations;
      && k < |rs| && WaitsFor(rs[k], s.loans[loanId].book)
      && (forall j :: 0 <= j < |rs| && WaitsFor(rs[j], s.loans[loanId].book) ==> Precedes(rs, k, j))
      && |r.state.reservations| == |rs|
      && r.state.reservations[k] == rs[k].(status := Available)
      && (forall j :: 0 <= j < |rs| && j != k ==> r.state.reservations[j] == rs[j])
    ensures Returnable(s, actor, verb, loanId) ==>
      var h := FirstWaiting(s.reservations, s.loans[loanId].book);
      && (h.None? ==> r.reply == LoanReturned(None))
      && (h.Some? ==> (r.reply.IntegrityError? <==> PromotionCollides(s.reservations, h.value)))
      && (h.Some? && !PromotionCollides(s.reservations, h.value) ==> r.reply == LoanReturned(h))
    ensures r.reply.IntegrityError? ==>
      && Returnable(s, actor, verb, loanId)
      && r.state.reservations == s.reservations
      && exists j :: 0 <= j < |s.reservations| && WaitsFor(s.reservations[j], s.loans[loanId].book)
  {
    if loanId >= |s.loans| then Outcome(s, NotFound)
    else
      var l := s.loans[loanId];
      if !MayActFor(actor, l.user) then Outcome(s, Forbidden)
      else if verb != Post then Outcome(s, WrongMethod)
      else if l.status != Active then Outcome(s, Ignored)
      else
        var loans' := s.loans[loanId := Close(l, now)];
        assert loans'[loanId] != s.loans[loanId];
        var books' := s.books[l.book := IncreaseQuantity(s.books[l.book]).book];
        var rs := s.reservations;
        match FirstWaiting(rs, l.book)
        case None => Outcome(State(books', loans', rs), LoanReturned(None))
        case Some(k) =>
          var promoted := rs[k].(status := Available);
          if FitsAt(rs, k, promoted) then
            assert !PromotionCollides(rs, k) by {
              forall j | 0 <= j < |rs| && j != k
                ensures !(rs[j].user == rs[k].user && rs[j].book == rs[k].book && rs[j].status == Available)
              {
                assert !SameKey(rs[j], promoted);
              }
            }
            Outcome(State(books', loans', Store(rs, k, promoted)), LoanReturned(Some(k)))
          else
            assert PromotionCollides(rs, k);
            Outcome(State(books', loans', rs), IntegrityError)
  }

  /** `loan_overdue_list`: librarians only; the overdue loans, earliest due date first. */
  function LoanOverdueList(s: State, actor: User, now: int): (r: Option<seq<nat>>)
    ensures r.None? <==> !IsLibrarian(actor)
    ensures r.Some? ==> forall i: nat :: i in r.value <==> i < |s.loans| && IsOverdue(s.loans[i], now)
    ensures r.Some? ==> Selection.Below(r.value, |s.loans|) && SortedByDue(s.loans, r.value)
    ensures r.Some? ==> multiset(r.value) == multiset(OverdueIds(s.loans, now))
  {
    if IsLibrarian(actor) then Some(OverdueList(s.loans, now)) else None
  }

  /** A WAITING row for this member and book already exists. */
  predicate AlreadyWaiting(rs: seq<Reservation>, user: nat, book: nat)
  {
    exists j :: 0 <= j < |rs| && rs[j].user == user && WaitsFor(rs[j], book)
  }

  /** `reservation_create`: queues a WAITING reservation that expires one day after it is made. */
  function ReservationCreate(s: State, actor: User, verb: HttpMethod, bookId: nat, formValid: bool, now: int): (r: Outcome)
    ensures bookId >= |s.books| ==> r == Outcome(s, NotFound)
    ensures r.reply == NotFound <==> bookId >= |s.books|
    ensures r.reply == FormShown <==> bookId < |s.books| && !(verb == Post && formValid)
    ensures r.reply.Reserved? <==>
      bookId < |s.books| && verb == Post && formValid && !AlreadyWaiting(s.reservations, actor.id, bookId)
    ensures r.reply.IntegrityError? <==>
      bookId < |s.books| && verb == Post && formValid && AlreadyWaiting(s.reservations, actor.id, bookId)
    ensures r.reply.Reserved? ==>
      && r.reply.reservation == |s.reservations|
      && r.state.books == s.books && r.state.loans == s.loans
      && r.state.reservations == s.reservations + [Reservations.Open(actor.id, bookId, now)]
      && r.state.reservations[|s.reservations|].status == Waiting
      && r.state.reservations[|s.reservations|].expiryDate == now + Day
    ensures !r.reply.Reserved? ==> r.state == s
  {
    if bookId >= |s.books| then Outcome(s, NotFound)
    else if verb != Post || !formValid then Outcome(s, FormShown)
    else
      var rs := s.reservations;
      var request := Reservations.Open(actor.id, bookId, now);
      if !FitsAt(rs, |rs|, request) then
        assert AlreadyWaiting(rs, actor.id, bookId);
        Outcome(s, IntegrityError)
      else
        assert !AlreadyWaiting(rs, actor.id, bookId) by {
          forall j | 0 <= j < |rs| ensures !(rs[j].user == actor.id && WaitsFor(rs[j], bookId)) {
            assert !SameKey(rs[j], request);
          }
        }
        Outcome(s.(reservations := Store(rs, |rs|, request)), Reserved(|rs|))
  }

  /** Another row already holds the CANCELLED slot of this member and book. */
  predicate CancelledBefore(rs: seq<Reservation>, k: nat)
    requires k < |rs|
  {
    exists j :: 0 <= j < |rs| && j != k && rs[j].user == rs[k].user && rs[j].book == rs[k].book && rs[j].status == Cancelled
  }

  /** `reservation_cancel`: the owner or a librarian cancels a WAITING or AVAILABLE reservation. */
  function ReservationCancel(s: State, actor: User, verb: HttpMethod, resId: nat): (r: Outcome)
    ensures resId >= |s.reservations| ==> r == Outcome(s, NotFound)
    ensures resId < |s.reservations| && !MayActFor(actor, s.reservations[resId].user) ==> r == Outcome(s, Forbidden)
    ensures r.reply == NotFound <==> resId >= |s.reservations|
    ensures r.reply == Forbidden <==> resId < |s.reservations| && !MayActFor(actor, s.reservations[resId].user)
    ensures r.reply == WrongMethod <==>
      resId < |s.reservations| && MayActFor(actor, s.reservations[resId].user) && verb != Post
    ensures r.reply == Ignored <==>
      && resId < |s.reservations|
      && MayActFor(actor, s.reservations[resId].user)
      && verb == Post
      && s.reservations[resId].status !in {Waiting, Available}
    ensures r.reply == ReservationCancelled <==>
      && resId < |s.reservations|
      && MayActFor(actor, s.reservations[resId].user)
      && verb == Post
      && s.reservations[resId].status in {Waiting, Available}
      && !CancelledBefore(s.reservations, resId)
    ensures r.reply == IntegrityError <==>
      && resId < |s.reservations|
      && MayActFor(actor, s.reservations[resId].user)
      && verb == Post
      && s.reservations[resId].status in {Waiting, Available}
      && CancelledBefore(s.reservations, resId)
    ensures r.reply == ReservationCancelled ==>
      && r.state.books == s.books && r.state.loans == s.loans
      && |r.state.reservations| == |s.reservations|
      && r.state.reservations[resId] == s.reservations[resId].(status := Cancelled)
      && (forall j :: 0 <= j < |s.reservations| && j != resId ==> r.state.reservations[j] == s.reservations[j])
    ensures r.reply != ReservationCancelled ==> r.state == s
  {
    if resId >= |s.reservations| then Outcome(s, NotFound)
    else
      var rs := s.reservations;
      var res := rs[resId];
      if !MayActFor(actor, res.user) then Outcome(s, Forbidden)
      else if verb != Post then Outcome(s, WrongMethod)
      else if res.status !in {Waiting, Available} then Outcome(s, Ignored)
      else
        var cancelled := res.(status := Cancelled);
        if !FitsAt(rs, resId, cancelled) then Outcome(s, IntegrityError)
        else
          assert !CancelledBefore(rs, resId) by {
            forall j | 0 <= j < |rs| && j != resId
              ensures !(rs[j].user == res.user && rs[j].book == res.book && rs[j].status == Cancelled)
            {
              assert !SameKey(rs[j], cancelled);
            }
          }
          Outcome(s.(reservations := Store(rs, resId, cancelled)), ReservationCancelled)
  }
}

=== FILE: clock.dfy ===
/** Timestamps are integer seconds. */
module Clock {

  /** One day, as `timedelta(days=1)`. */
  const Day: int := 86400
}

=== FILE: invariants.dfy ===
/** Every view keeps the tables consistent: links, counter bounds, ISBN and reservation uniqueness. */
module Invariants {
  import opened Wrappers
  import opened Accounts
  import opened Circulation

  lemma BookCreateKeepsConsistent(s: State, actor: User, verb: HttpMethod, form: Option<BookForm>)
    requires Consistent(s)
    ensures Consistent(BookCreate(s, actor, verb, form).state)
  {
  }

  lemma LoanCreateKeepsConsistent(s: State, actor: User, verb: HttpMethod, bookId: nat, formValid: bool, now: int)
    requires Consistent(s)
    ensures Consistent(LoanCreate(s, actor, verb, bookId, formValid, now).state)
  {
  }

  lemma LoanReturnKeepsConsistent(s: State, actor: User, verb: HttpMethod, loanId: nat, now: int)
    requires Consistent(s)
    ensures Consistent(LoanReturn(s, actor, verb, loanId, now).state)
  {
  }

  lemma ReservationCreateKeepsConsistent(s: State, actor: User, verb: HttpMethod, bookId: nat, formValid: bool, now: int)
    requires Consistent(s)
    ensures Consistent(ReservationCreate(s, actor, verb, bookId, formValid, now).state)
  {
  }

  lemma ReservationCancelKeepsConsistent(s: State, actor: User, verb: HttpMethod, resId: nat)
    requires Consistent(s)
    ensures Consistent(ReservationCancel(s, actor, verb, resId).state)
  {
  }
}

=== FILE: inventory.dfy ===
/** A title in the catalogue and its two copy counters. */
module Inventory {

  /** One catalogue entry. Both counters are non-negative columns (0 is allowed). */
  datatype Book = Book(
    title: string,
    author: string,
    isbn: string,
    publisher: string,
    totalQuantity: nat,
    availableQuantity: nat)

  /** The counter invariant: never more copies on the shelf than the library owns. */
  predicate Bounded(b: Book)
  {
    b.availableQuantity <= b.totalQuantity
  }

  /** A copy can be lent out. */
  predicate IsAvailable(b: Book)
  {
    b.availableQuantity > 0
  }

  /** A guarded counter update: whether it was applied, and the book afterwards. */
  datatype Update = Update(ok: bool, book: Book)

  /** Lend one copy: applied only when a copy is on the shelf. */
  function DecreaseQuantity(b: Book): (r: Update)
    ensures r.ok <==> IsAvailable(b)
    ensures r.ok ==> r.book.availableQuantity + 1 == b.availableQuantity
    ensures !r.ok ==> r.book == b
    ensures r.book == b.(availableQuantity := r.book.availableQuantity)
    ensures Bounded(b) ==> Bounded(r.book)
  {
    if IsAvailable(b) then Update(true, b.(availableQuantity := b.availableQuantity - 1))
    else Update(false, b)
  }

  /** Take one copy back: applied only while some copy is out. */
  function IncreaseQuantity(b: Book): (r: Update)
    ensures r.ok <==> b.availableQuantity < b.totalQuantity
    ensures r.ok ==> r.book.availableQuantity == b.availableQuantity + 1
    ensures !r.ok ==> r.book == b
    ensures r.book == b.(availableQuantity := r.book.availableQuantity)
    ensures Bounded(b) ==> Bounded(r.book)
    ensures r.ok ==> IsAvailable(r.book)
  {
    if b.availableQuantity < b.totalQuantity then Update(true, b.(availableQuantity := b.availableQuantity + 1))
    else Update(false, b)
  }

  /** A freshly catalogued book: every copy it owns is on the shelf. */
  function Register(title: string, author: string, isbn: string, publisher: string, total: nat): (b: Book)
    ensures Bounded(b)
    ensures b.availableQuantity == b.totalQuantity == total
    ensures IsAvailable(b) <==> total > 0
    ensures !IncreaseQuantity(b).ok
  {
    Book(title, author, isbn, publisher, total, total)
  }

  /** Availability is exactly the condition under which lending succeeds. */
  lemma AvailableIffLendable(b: Book)
    ensures IsAvailable(b) <==> DecreaseQuantity(b).ok
    ensures IsAvailable(b) <==> b.availableQuantity != 0
  {
  }

  /** Lending a copy and taking it back restores the book exactly. */
  lemma DecreaseThenIncrease(b: Book)
    requires Bounded(b)
    requires DecreaseQuantity(b).ok
    ensures IncreaseQuantity(DecreaseQuantity(b).book) == Update(true, b)
  {
  }

  /** Taking a copy back and lending it again restores the book exactly. */
  lemma IncreaseThenDecrease(b: Book)
    requires IncreaseQuantity(b).ok
    ensures DecreaseQuantity(IncreaseQuantity(b).book) == Update(true, b)
  {
  }
}

=== FILE: loans.dfy ===
/** Loan records, the derived overdue status and the librarian's overdue listing. */
module Loans {
  import opened Wrappers
  import opened Clock
  import Selection
  import Ordering

  /** Fixed loan period: `timedelta(days=14)`. */
  const LoanPeriod: int := 14 * Day

  /** Stored status values. `Overdue` is a declared choice that no operation ever stores. */
  datatype LoanStatus = Active | Overdue | Returned

  /** One loan: who borrowed which book, and when. `user` and `book` are primary keys. */
  datatype Loan = Loan(
    user: nat,
    book: nat,
    status: LoanStatus,
    loanDate: int,
    dueDate: int,
    returnedDate: Option<int>)

  /** Overdue is derived at read time: still out, and the due instant has passed. */
  predicate IsOverdue(l: Loan, now: int)
  {
    l.status == Active && now > l.dueDate
  }

  /** The loan a successful borrow records at instant `now`. */
  function Open(user: nat, book: nat, now: int): (l: Loan)
    ensures l.user == user && l.book == book
    ensures l.status == Active && l.returnedDate == None
    ensures l.dueDate - l.loanDate == LoanPeriod && l.loanDate == now
    ensures forall t :: t <= now + LoanPeriod ==> !IsOverdue(l, t)
    ensures forall t :: t > now + LoanPeriod ==> IsOverdue(l, t)
  {
    Loan(user, book, Active, now, now + LoanPeriod, None)
  }

  /** The loan after it is handed back at instant `now`. */
  function Close(l: Loan, now: int): (l': Loan)
    ensures l'.status == Returned && l'.returnedDate == Some(now)
    ensures l'.user == l.user && l'.book == l.book && l'.loanDate == l.loanDate && l'.dueDate == l.dueDate
    ensures forall t :: !IsOverdue(l', t)
  {
    l.(status := Returned, returnedDate := Some(now))
  }

  /** Keys of the loans the overdue query selects (still ACTIVE, due date before now), in key order. */
  function OverdueIds(loans: seq<Loan>, now: int): (r: seq<nat>)
    ensures forall i: nat :: i in r <==> i < |loans| && IsOverdue(loans[i], now)
    ensures Selection.Increasing(r)
  {
    Selection.Indices(|loans|, (i: nat) => i < |loans| && loans[i].status == Active && loans[i].dueDate < now)
  }

  /** The overdue listing's rank: earlier due date first. */
  function DueRank(loans: seq<Loan>): nat -> int
  {
    (i: nat) => if i < |loans| then loans[i].dueDate else 0
  }

  /** A loan table's default listing rank: newest loan date first. */
  function NewestFirst(loans: seq<Loan>): nat -> int
  {
    (i: nat) => if i < |loans| then -loans[i].loanDate else 0
  }

  /** Every adjacent pair of keys is in due-date order, ties by key. */
  predicate SortedByDue(loans: seq<Loan>, s: seq<nat>)
  {
    Ordering.Sorted(DueRank(loans), s)
  }

  /** The overdue listing: exactly the overdue loans, earliest due date first. */
  function OverdueList(loans: seq<Loan>, now: int): (r: seq<nat>)
    ensures Selection.Below(r, |loans|)
    ensures forall i: nat :: i in r <==> i < |loans| && IsOverdue(loans[i], now)
    ensures multiset(r) == multiset(OverdueIds(loans, now))
    ensures SortedByDue(loans, r)
    ensures forall i :: 0 <= i < |r| - 1 ==> loans[r[i]].dueDate <= loans[r[i + 1]].dueDate
  {
    var ids := OverdueIds(loans, now);
    assert Selection.Below(ids, |loans|) by {
      forall i | 0 <= i < |ids| ensures ids[i] < |loans| {
        assert ids[i] in ids;
      }
    }
    var r := Ordering.Sort(DueRank(loans), ids);
    assert Selection.Below(r, |loans|) by {
      forall i | 0 <= i < |r| ensures r[i] < |loans| {
        assert r[i] in r;
      }
    }
    r
  }
}

=== FILE: ordering.dfy ===
/** Listing keys in the order of a ranking, as a query's `order_by` does. */
module Ordering {
  import Selection

  /** `a` is listed before `b`: smaller rank first, ties by key so that the order is total. */
  predicate Before(rank: nat -> int, a: nat, b: nat)
  {
    rank(a) < rank(b) || (rank(a) == rank(b) && a < b)
  }

  /** No key is listed twice. */
  predicate Distinct(s: seq<nat>)
  {
    forall i, j :: 0 <= i < j < |s| ==> s[i] != s[j]
  }

  /** Every adjacent pair of keys is in listing order. */
  predicate Sorted(rank: nat -> int, s: seq<nat>)
  {
    forall i :: 0 <= i < |s| - 1 ==> Before(rank, s[i], s[i + 1])
  }

  /** Along a sorted listing the rank never decreases. */
  lemma SortedRanks(rank: nat -> int, s: seq<nat>)
    requires Sorted(rank, s)
    ensures forall i :: 0 <= i < |s| - 1 ==> rank(s[i]) <= rank(s[i + 1])
  {
    forall i | 0 <= i < |s| - 1 ensures rank(s[i]) <= rank(s[i + 1]) {
      assert Before(rank, s[i], s[i + 1]);
    }
  }

  /** Insert one key into a listing. */
  function Insert(rank: nat -> int, x: nat, s: seq<nat>): (r: seq<nat>)
    ensures multiset(r) == multiset(s) + multiset{x}
    ensures |r| > 0 && (r[0] == x || (|s| > 0 && r[0] == s[0]))
    ensures Sorted(rank, s) && x !in s ==> Sorted(rank, r)
  {
    if |s| == 0 then [x]
    else if Before(rank, x, s[0]) then [x] + s
    else
      var rest := Insert(rank, x, s[1..]);
      assert s == [s[0]] + s[1..];
      assert x != s[0] ==> Before(rank, s[0], x);
      [s[0]] + rest
  }

  /** Sort distinct keys into listing order (insertion sort). */
  function Sort(rank: nat -> int, s: seq<nat>): (r: seq<nat>)
    requires Selection.Increasing(s)
    ensures multiset(r) == multiset(s)
    ensures |r| == |s|
    ensures forall i: nat :: i in r <==> i in s
    ensures Sorted(rank, r)
    ensures Distinct(r)
  {
    if |s| == 0 then []
    else
      assert s == [s[0]] + s[1..];
      var rest := Sort(rank, s[1..]);
      assert s[0] !in multiset(rest);
      var r := Insert(rank, s[0], rest);
      InsertDistinct(rank, s[0], rest);
      SameElements(r, s);
      r
  }

  /** Inserting a new key into a listing without repeats gives a listing without repeats. */
  lemma {:induction false} InsertDistinct(rank: nat -> int, x: nat, s: seq<nat>)
    requires Distinct(s) && x !in s
    ensures Distinct(Insert(rank, x, s))
  {
    if |s| > 0 && !Before(rank, x, s[0]) {
      assert s == [s[0]] + s[1..];
      InsertDistinct(rank, x, s[1..]);
      var rest := Insert(rank, x, s[1..]);
      assert s[0] !in s[1..] by {
        forall j | 0 <= j < |s[1..]| ensures s[1..][j] != s[0] {
          assert s[1..][j] == s[j + 1];
        }
      }
      assert s[0] !in multiset(rest);
      assert Insert(rank, x, s) == [s[0]] + rest;
    }
  }

  /** Two sequences with the same multiset have the same length and the same members. */
  lemma SameElements(a: seq<nat>, b: seq<nat>)
    requires multiset(a) == multiset(b)
    ensures |a| == |b|
    ensures forall i: nat :: i in a <==> i in b
  {
    assert |multiset(a)| == |a| && |multiset(b)| == |b|;
    forall i: nat ensures i in a <==> i in b {
      assert i in a <==> i in multiset(a);
      assert i in b <==> i in multiset(b);
    }
  }

  /** Inserting under two rankings that agree on every key involved gives the same listing. */
  lemma {:induction false} InsertAgree(rank1: nat -> int, rank2: nat -> int, x: nat, s: seq<nat>)
    requires rank1(x) == rank2(x)
    requires forall i :: 0 <= i < |s| ==> rank1(s[i]) == rank2(s[i])
    ensures Insert(rank1, x, s) == Insert(rank2, x, s)
  {
    if |s| > 0 {
      InsertAgree(rank1, rank2, x, s[1..]);
    }
  }

  /** Sorting under two rankings that agree on every key of the input gives the same listing. */
  lemma {:induction false} SortAgree(rank1: nat -> int, rank2: nat -> int, s: seq<nat>)
    requires Selection.Increasing(s)
    requires forall i :: 0 <= i < |s| ==> rank1(s[i]) == rank2(s[i])
    ensures Sort(rank1, s) == Sort(rank2, s)
  {
    if |s| > 0 {
      SortAgree(rank1, rank2, s[1..]);
      var rest := Sort(rank1, s[1..]);
      forall i | 0 <= i < |rest| ensures rank1(rest[i]) == rank2(rest[i]) {
        assert rest[i] in multiset(s[1..]);
        var j :| 0 <= j < |s[1..]| && s[1..][j] == rest[i];
      }
      InsertAgree(rank1, rank2, s[0], rest);
    }
  }
}

=== FILE: properties.dfy ===
/** Properties that span several views. */
module Properties {
  import opened Wrappers
  import opened Inventory
  import opened Loans
  import opened Reservations
  import opened Accounts
  import opened Circulation

  /** With no copy on the shelf a valid borrow still records an active loan; only the counter update is refused. */
  lemma BorrowWithoutStockStillRecordsLoan(s: State, actor: User, bookId: nat, now: int)
    requires bookId < |s.books| && s.books[bookId].availableQuantity == 0
    ensures var r := LoanCreate(s, actor, Post, bookId, true, now);
      && r.reply == LoanCreated(|s.loans|, false)
      && |r.state.loans| == |s.loans| + 1
      && r.state.loans[|s.loans|].status == Active
      && r.state.books == s.books
  {
  }

  /** Borrowing a copy and returning that loan puts the book's counter back where it was. */
  lemma BorrowThenReturnRestoresBook(s: State, actor: User, bookId: nat, t1: int, t2: int)
    requires Consistent(s)
    requires bookId < |s.books| && IsAvailable(s.books[bookId])
    ensures var s1 := LoanCreate(s, actor, Post, bookId, true, t1).state;
      Returnable(s1, actor, Post, |s.loans|)
    ensures var s1 := LoanCreate(s, actor, Post, bookId, true, t1).state;
      LoanReturn(s1, actor, Post, |s.loans|, t2).state.books == s.books
  {
  }

  /** A member at the loan cap who returns one of their loans may borrow again. */
  lemma ReturnLiftsCapInView(s: State, actor: User, loanId: nat, now: int)
    requires Linked(s)
    requires loanId < |s.loans| && s.loans[loanId].user == actor.id && s.loans[loanId].status == Active
    requires |ActiveLoans(actor, s.loans)| == BorrowLimit
    ensures !CanBorrow(actor, s.loans)
    ensures CanBorrow(actor, LoanReturn(s, actor, Post, loanId, now).state.loans)
  {
    ReturnLiftsCap(actor, s.loans, loanId, now);
  }

  /** A new reservation is among its member's active reservations until it is cancelled. */
  lemma ReservationListedUntilCancelled(s: State, u: User, bookId: nat, now: int)
    requires bookId < |s.books| && !AlreadyWaiting(s.reservations, u.id, bookId)
    requires !CancelledBefore(s.reservations + [Reservations.Open(u.id, bookId, now)], |s.reservations|)
    ensures var n := |s.reservations|;
      var r1 := ReservationCreate(s, u, Post, bookId, true, now);
      var r2 := ReservationCancel(r1.state, u, Post, n);
      && n in ActiveReservations(u, r1.state.reservations)
      && r2.reply == ReservationCancelled
      && n !in ActiveReservations(u, r2.state.reservations)
  {
  }

  /** Reserving, cancelling, reserving again and cancelling again: the second cancel breaks the uniqueness constraint. */
  lemma SecondCancelHitsConstraint(s: State, u: User, bookId: nat, t1: int, t2: int)
    requires bookId < |s.books|
    requires forall j :: 0 <= j < |s.reservations| ==> s.reservations[j].user != u.id
    ensures var n := |s.reservations|;
      var r1 := ReservationCreate(s, u, Post, bookId, true, t1);
      var r2 := ReservationCancel(r1.state, u, Post, n);
      var r3 := ReservationCreate(r2.state, u, Post, bookId, true, t2);
      var r4 := ReservationCancel(r3.state, u, Post, n + 1);
      && r1.reply == Reserved(n)
      && r2.reply == ReservationCancelled
      && r3.reply == Reserved(n + 1)
      && r4.reply == IntegrityError
      && r4.state == r3.state
      && r4.state.reservations[n + 1].status == Waiting
  {
  }

  /**
   * A member re-reserves a book while an earlier reservation of theirs for it is
   * AVAILABLE: the next return of that book cannot save the promotion, yet the
   * loan is closed and the copy is back on the shelf.
   */
  lemma PromotionHitsConstraint(s: State, u: User, lib: User, bookId: nat, l1: nat, l2: nat, t: int)
    requires Consistent(s) && IsLibrarian(lib)
    requires l1 < |s.loans| && l2 < |s.loans| && l1 != l2
    requires s.loans[l1].book == bookId && s.loans[l1].status == Active
    requires s.loans[l2].book == bookId && s.loans[l2].status == Active
    requires forall j :: 0 <= j < |s.reservations| ==> s.reservations[j].book != bookId
    ensures var n := |s.reservations|;
      var r1 := ReservationCreate(s, u, Post, bookId, true, t);
      var r2 := LoanReturn(r1.state, lib, Post, l1, t + 1);
      var r3 := ReservationCreate(r2.state, u, Post, bookId, true, t + 2);
      var r4 := LoanReturn(r3.state, lib, Post, l2, t + 3);
      && r1.reply == Reserved(n)
      && r2.reply == LoanReturned(Some(n))
      && r3.reply == Reserved(n + 1)
      && r4.reply == IntegrityError
      && r4.state.loans[l2].status == Returned
      && r4.state.reservations[n + 1].status == Waiting
  {
  }

  /** The walk-through: one copy, A borrows, B reserves, A returns and B's reservation is promoted. */
  lemma OneCopyWalkThrough(a: User, b: User, t: int)
    requires a.id != b.id && a.role == Member && b.role == Member
    ensures var s0 := State([Register("Title", "Author", "9780000000000", "Publisher", 1)], [], []);
      var r1 := LoanCreate(s0, a, Post, 0, true, t);
      var r2 := ReservationCreate(r1.state, b, Post, 0, true, t + 1);
      var r3 := LoanReturn(r2.state, a, Post, 0, t + 2);
      && r1.reply == LoanCreated(0, true) && r1.state.books[0].availableQuantity == 0
      && r2.reply == Reserved(0)
      && r3.reply == LoanReturned(Some(0))
      && r3.state.books[0].availableQuantity == 1
      && r3.state.loans[0].status == Returned
      && r3.state.reservations[0].user == b.id
      && r3.state.reservations[0].status == Available
  {
  }
}

=== FILE: reservations.dfy ===
/** Reservation records, their uniqueness constraint and the per-book FIFO queue. */
module Reservations {
  import opened Wrappers
  import opened Clock
  import Ordering

  /** Hold window set when a reservation is made: `timedelta(days=1)`. */
  const HoldWindow: int := Day

  datatype ReservationStatus = Waiting | Available | Cancelled

  /** One reservation; `user` and `book` are primary keys. */
  datatype Reservation = Reservation(
    user: nat,
    book: nat,
    status: ReservationStatus,
    reservedDate: int,
    expiryDate: int)

  predicate IsExpired(r: Reservation, now: int)
  {
    now > r.expiryDate
  }

  /** The reservation a successful request records at instant `now`. */
  function Open(user: nat, book: nat, now: int): (r: Reservation)
    ensures r.user == user && r.book == book
    ensures r.status == Waiting && r.reservedDate == now
    ensures r.expiryDate == now + HoldWindow
    ensures forall t :: IsExpired(r, t) <==> t > now + Day
  {
    Reservation(user, book, Waiting, now, now + HoldWindow)
  }

  /** Two rows collide under the table's `unique_together = (user, book, status)`. */
  predicate SameKey(a: Reservation, b: Reservation)
  {
    a.user == b.user && a.book == b.book && a.status == b.status
  }

  /** The table satisfies the uniqueness constraint. */
  predicate UniqueTogether(rs: seq<Reservation>)
  {
    forall i, j :: 0 <= i < j < |rs| ==> !SameKey(rs[i], rs[j])
  }

  /** Saving `r` as row `k` violates no constraint; `k == |rs|` is a new row. */
  predicate FitsAt(rs: seq<Reservation>, k: nat, r: Reservation)
  {
    forall j :: 0 <= j < |rs| && j != k ==> !SameKey(rs[j], r)
  }

  /** Row `k` (an existing row or the next new one) after saving `r` into it. */
  function Store(rs: seq<Reservation>, k: nat, r: Reservation): (rs': seq<Reservation>)
    requires k <= |rs|
    ensures |rs'| == if k == |rs| then |rs| + 1 else |rs|
    ensures rs'[k] == r
    ensures forall j :: 0 <= j < |rs| && j != k ==> rs'[j] == rs[j]
    ensures UniqueTogether(rs) && FitsAt(rs, k, r) ==> UniqueTogether(rs')
  {
    if k == |rs| then rs + [r] else rs[k := r]
  }

  predicate WaitsFor(r: Reservation, book: nat)
  {
    r.book == book && r.status == Waiting
  }

  /** A reservation table's default listing rank: earliest reservation date first. */
  function ReservedRank(rs: seq<Reservation>): nat -> int
  {
    (i: nat) => if i < |rs| then rs[i].reservedDate else 0
  }

  /** Queue order: `a` is `b` or is listed before it in the table's default order. */
  predicate Precedes(rs: seq<Reservation>, a: nat, b: nat)
  {
    a == b || Ordering.Before(ReservedRank(rs), a, b)
  }

  /** The head of `book`'s waiting queue among the rows with key below `n`. */
  function Head(rs: seq<Reservation>, book: nat, n: nat): (h: Option<nat>)
    requires n <= |rs|
    ensures h.Some? ==> h.value < n && WaitsFor(rs[h.value], book)
    ensures h.Some? ==> forall j :: 0 <= j < n && WaitsFor(rs[j], book) ==> Precedes(rs, h.value, j)
    ensures h.None? <==> forall j :: 0 <= j < n ==> !WaitsFor(rs[j], book)
  {
    if n == 0 then None
    else
      var h := Head(rs, book, n - 1);
      if WaitsFor(rs[n - 1], book) && (h.None? || rs[n - 1].reservedDate < rs[h.value].reservedDate)
      then Some(n - 1)
      else h
  }

  /** The head of the book's whole waiting queue: earliest reservation date, ties by key. */
  function FirstWaiting(rs: seq<Reservation>, book: nat): (h: Option<nat>)
    ensures h.Some? ==> h.value < |rs| && WaitsFor(rs[h.value], book)
    ensures h.Some? ==> forall j :: 0 <= j < |rs| && WaitsFor(rs[j], book) ==> Precedes(rs, h.value, j)
    ensures h.None? <==> forall j :: 0 <= j < |rs| ==> !WaitsFor(rs[j], book)
  {
    Head(rs, book, |rs|)
  }

  /** The queue head is unique: any row with the head's properties is the head. */
  lemma HeadIsUnique(rs: seq<Reservation>, book: nat, k: nat)
    requires k < |rs| && WaitsFor(rs[k], book)
    requires forall j :: 0 <= j < |rs| && WaitsFor(rs[j], book) ==> Precedes(rs, k, j)
    ensures FirstWaiting(rs, book) == Some(k)
  {
  }
}

=== FILE: selection.dfy ===
/** Filtered queries over a table whose primary keys are 0 .. n-1. */
module Selection {

  /** Keys in strictly ascending order: the order in which the rows were created. */
  predicate Increasing(s: seq<nat>)
  {
    forall i, j :: 0 <= i < j < |s| ==> s[i] < s[j]
  }

  /** Every key in `s` names a row of a table with `n` rows. */
  predicate Below(s: seq<nat>, n: nat)
  {
    forall i :: 0 <= i < |s| ==> s[i] < n
  }

  /** The keys below `n` whose row satisfies `p`, in ascending order. */
  function Indices(n: nat, p: nat -> bool): (r: seq<nat>)
    ensures forall i: nat :: i in r <==> i < n && p(i)
    ensures Increasing(r)
    ensures |r| <= n
  {
    if n == 0 then []
    else
      var front := Indices(n - 1, p);
      assert forall i :: 0 <= i < |front| ==> front[i] < n - 1 by {
        forall i | 0 <= i < |front| ensures front[i] < n - 1 {
          assert front[i] in front;
        }
      }
      front + (if p(n - 1) then [n - 1] else [])
  }

  /** Two filters that agree on every key below `n` select the same keys. */
  lemma {:induction false} IndicesAgree(n: nat, p: nat -> bool, q: nat -> bool)
    requires forall i: nat :: i < n ==> p(i) == q(i)
    ensures Indices(n, p) == Indices(n, q)
  {
    if n > 0 {
      IndicesAgree(n - 1, p, q);
    }
  }

  /** Turning off the filter on exactly one selected key shrinks the selection by exactly one. */
  lemma {:induction false} IndicesDropOne(n: nat, p: nat -> bool, q: nat -> bool, k: nat)
    requires k < n && p(k) && !q(k)
    requires forall i: nat :: i < n && i != k ==> p(i) == q(i)
    ensures |Indices(n, q)| + 1 == |Indices(n, p)|
  {
    if k == n - 1 {
      IndicesAgree(n - 1, p, q);
    } else {
      IndicesDropOne(n - 1, p, q, k);
    }
  }
}

=== FILE: wrappers.dfy ===
/** Optional values, as a nullable column or an empty `.first()`. */
module Wrappers {

  datatype Option<+T> = None | Some(value: T)
}
